=== FILE: README.md ===
# InfluxDB output: point construction, flush envelope, response handling

A Dafny model of the per-event core of the Logstash InfluxDB output plugin
(`lib/logstash/outputs/influxdb.rb`). For every event, `receive` converts the
event timestamp to the configured precision, builds a data point (an ordered
column → value hash) from templates or from the event's own fields, settles a
`time` column according to `allow_time_override`, deletes the excluded columns,
coerces the listed columns to integer or float, and wraps the point with the
rendered series name into an event hash for the buffer. A flush wraps the
buffered event hashes with the configured database and retention policy. `post`
decides from the response status whether the body is read and whether the write
succeeded.

Modules, one per concern:

- `RubyHash` (`ruby_hash.dfy`): Ruby's insertion-ordered `Hash` as a sequence of
  entries: lookup, assignment (in place for an existing key, appended for a new
  one), deletion, and `Hash[pairs]`.
- `Values` (`values.dfy`): the column values (`Str`, `Int`, `Float`) and Ruby's
  `String#to_i`, `Integer#to_s` and `to_f` on them.
- `Precision` (`precision.dfy`): the `time_precision` setting and
  `timestamp_at_precision`.
- `Fields` (`fields.dfy`): `exclude_fields!` and `coerce_values!`, each with an
  independent reference definition and the lemma tying the two together.
- `Pipeline` (`pipeline.dfy`): settings, `create_point_from_event`, the `time`
  handling, `receive`, and the flush envelope.
- `Http` (`http.dfy`): `read_body?`, the 2xx test, and the outcome of `post`.
- `Wrappers` (`wrappers.dfy`): `Option` and `Result`.

The template renderer `event.sprintf` is an outside capability and appears as a
parameter `render: string -> string`. The event's own fields are given as the
texts their values print as. Whether the event passes the output's event filter
(`output?`) is a boolean on the event.

Where the plugin's setting documentation and its code disagree, the model
follows the code:

- The comment on `allow_time_override` (`lib/logstash/outputs/influxdb.rb:50-53`)
  says a column named `time` is ignored when the setting is off. The code only
  logs an error and keeps the column among the fields (`:154-157`), and so does
  the model (`Pipeline.NoOverrideKeepsEventTime`).
- The comment on `exclude_fields` (`:85`) says the exclusion applies only with
  `use_event_fields_for_data_points`. The code applies it to every point
  (`:162`), and so does the model: `Pipeline.Receive` promises that no excluded
  column is in a buffered hash, whichever source the point was built from.

## Model

| member | source | states |
|---|---|---|
| `RubyHash.Store` | lib/logstash/outputs/influxdb.rb:284-287 | assigning a column makes the new value visible under it and changes no other column; an existing column keeps its place, a new one goes last; no key is ever duplicated |
| `RubyHash.Delete` | lib/logstash/outputs/influxdb.rb:158 | deleting a column removes it, keeps every other column's value, and keeps the remaining keys in their order |
| `RubyHash.FromPairs` | lib/logstash/outputs/influxdb.rb:269 | `Hash[pairs]` holds exactly the keys of the pairs, no key twice, and each key holds the value of its last pair |
| `Values.ParseInt` | lib/logstash/outputs/influxdb.rb:284 | the definition of `String#to_i`: skip leading blanks, read an optional sign, skip a `0d`/`0D` prefix, then read the leading decimal digits; text with no digits reads as 0 |
| `Values.ParseIntOfDecimal` | lib/logstash/outputs/influxdb.rb:284 | `to_i` reads back every integer written in decimal, also when text follows that cannot continue the number (as in `"2.0"`): text starting with neither a digit nor `_`, and after a lone `0` not with `d` or `D` |
| `Values.ParseIntOfPrefixed` | lib/logstash/outputs/influxdb.rb:284 | `to_i` reads past the base-10 prefix `0d`: a number written after it reads as that number, when the text after the number starts with neither a digit nor `_` |
| `Values.ToInteger` | lib/logstash/outputs/influxdb.rb:284 | `to_i` on a column value: a string reads by `String#to_i`, an integer stays as it is, a float reads through its text; the result is always an integer |
| `Values.ToFloat` | lib/logstash/outputs/influxdb.rb:287 | `to_f` on a column value: a string becomes the float its text denotes, an integer the float of its decimal text, a float stays as it is; the result is always a float |
| `Values.ToIntegerOfDecimal` | lib/logstash/outputs/influxdb.rb:284 | integer coercion of the text of an integer gives that integer |
| `Precision.Parse` | lib/logstash/outputs/influxdb.rb:63 | the setting accepts exactly `n`, `u`, `ms`, `s`, `m`, `h` |
| `Precision.ParseName` | lib/logstash/outputs/influxdb.rb:63 | validating a setting's spelling gives back that setting, and only its own spelling does |
| `Precision.TimestampAtPrecision` | lib/logstash/outputs/influxdb.rb:310-320 | fails exactly for `n`; otherwise the result is the timestamp times 1, 1000 or 1000000 (for `s`, `ms`, `u`) or divided by 60 or 3600 (for `m`, `h`), cut toward zero |
| `Precision.TimestampMonotone` | lib/logstash/outputs/influxdb.rb:310-320 | a later timestamp never converts to a smaller count |
| `Precision.WholeSeconds` | lib/logstash/outputs/influxdb.rb:311-319 | on whole seconds the conversion is exact scaling, and minutes and hours drop the remainder of the division |
| `Precision.NanosecondsAcceptedButFails` | lib/logstash/outputs/influxdb.rb:311-317 | `n` passes validation, yet the conversion fails for every timestamp |
| `Precision.TimestampAtPrecisionIntended` | lib/logstash/outputs/influxdb.rb:310-320 | with the multiplier 10^9 for `n`, the conversion cuts the scaled timestamp toward zero and agrees with the written conversion on every other setting |
| `Precision.IntendedMonotone` | lib/logstash/outputs/influxdb.rb:310-320 | the corrected conversion never gives a later timestamp a smaller count, at any setting, `n` included |
| `Precision.IntendedOnWholeSeconds` | lib/logstash/outputs/influxdb.rb:310-320 | on whole seconds, the corrected `n` conversion is exact scaling by 10^9 and a thousand times the `u` count |
| `Fields.ExcludeFields` | lib/logstash/outputs/influxdb.rb:303-305 | a listed column is absent afterwards; every other column keeps its value; keys stay unique |
| `Fields.ExcludeFieldsIsWithout` | lib/logstash/outputs/influxdb.rb:303-305 | deleting the listed columns one by one equals keeping exactly the unlisted entries, in their order |
| `Fields.ExcludeFieldsIdempotent` | lib/logstash/outputs/influxdb.rb:303-305 | excluding twice equals excluding once |
| `Fields.ExcludeFieldsListOrderIrrelevant` | lib/logstash/outputs/influxdb.rb:304 | only which names are listed matters, not their order or repetition |
| `Fields.Convert` | lib/logstash/outputs/influxdb.rb:281-290 | the definition of the `case value_type`: `integer` applies `to_i`, `float` applies `to_f`, any other type name (compared exactly) leaves the value |
| `Fields.CoerceValues` | lib/logstash/outputs/influxdb.rb:277-298 | coercion never adds, removes or reorders columns, and leaves every column the table does not list unchanged |
| `Fields.CoerceValuesIsPointwise` | lib/logstash/outputs/influxdb.rb:278-295 | walking the table equals converting each column on its own by its table entry |
| `Fields.CoerceValuesLookup` | lib/logstash/outputs/influxdb.rb:278-290 | a column is present afterwards exactly when it was before; a listed one holds its converted value, an unlisted one its old value |
| `Fields.CoerceUnknownTypeKeepsValue` | lib/logstash/outputs/influxdb.rb:288-289 | a type other than `integer` or `float` leaves the column's value as it was |
| `Fields.CoerceValuesIdempotent` | lib/logstash/outputs/influxdb.rb:277-298 | coercing an already coerced point changes nothing |
| `Pipeline.DefaultConfig` | lib/logstash/outputs/influxdb.rb:23-86 | the declared defaults: database `statistics`, retention policy `default`, series `logstash`, no data points, no time override, precision `ms`, no coercions, templates rather than event fields, no exclusions |
| `Pipeline.CreatePoint` | lib/logstash/outputs/influxdb.rb:268-270 | the point has a column for every rendered source key and no other, no key twice, and a key holds the rendered value of the last source entry rendering to it |
| `Pipeline.HandleTime` | lib/logstash/outputs/influxdb.rb:154-160 | with override on and a `time` column, that column's value becomes the time and the column is removed; otherwise the event time stands and the point is unchanged; other columns are never touched |
| `Pipeline.Receive` | lib/logstash/outputs/influxdb.rb:124-173 | an event is skipped exactly when the output's filter rejects it and buffered otherwise; a buffered hash carries the rendered series name and the configured precision, has no repeated column and no excluded column |
| `Pipeline.ReceiveFields` | lib/logstash/outputs/influxdb.rb:151-170 | an admitted event is buffered; a column reaches the event hash exactly when the built point has it, it is not the overriding `time`, and it is not excluded; its value is the rendered value converted by its table type, or kept if unlisted; so an excluded column is never coerced |
| `Pipeline.TimeOverrideTakesColumn` | lib/logstash/outputs/influxdb.rb:154-163 | with override on, an admitted event is buffered without a `time` field, when the point has a `time` column the event hash's time is that column's value with no unit conversion, even when `time` is also excluded, and without one it is the converted event timestamp |
| `Pipeline.NoOverrideKeepsEventTime` | lib/logstash/outputs/influxdb.rb:151-157 | with override off, the event hash's time is the event timestamp under the corrected conversion and a `time` column stays among the fields unless excluded |
| `Pipeline.TemplatedEventWithTimeOverride` | spec/outputs/influxdb_spec.rb:98-107 | an event with `foo` 1, `bar` 2, `time` 3 and templates for those columns, with override on, gives series `logstash`, time "3" and the fields `foo`, `bar` in that order |
| `Pipeline.FlushEnvelope` | lib/logstash/outputs/influxdb.rb:213-217 | the envelope names the configured database and retention policy and holds the given event hashes unchanged and in order, for a teardown flush as well |
| `Pipeline.EnvelopeOfReceived` | lib/logstash/outputs/influxdb.rb:165-170 | every point of an envelope built from received events carries the configured precision, no repeated column and no excluded column |
| `Pipeline.CollectedIsAdmitted` | lib/logstash/outputs/influxdb.rb:124-172 | the hashes a stream hands to the buffer are one per admitted event, in arrival order, and none for a rejected one: the `i`-th hash is the one `receive` made for the `i`-th admitted event |
| `Http.ReadBody` | lib/logstash/outputs/influxdb.rb:325-327 | the definition of `read_body?`: the body is read unless the status is 204, 304 or in 100..199 |
| `Http.IsSuccess` | lib/logstash/outputs/influxdb.rb:252 | the definition of the success test: the status lies in 200..299 |
| `Http.Post` | lib/logstash/outputs/influxdb.rb:225-260 | the write is accepted exactly for a 2xx response whose body, when read, reads without end-of-stream; it is abandoned exactly on end-of-stream; a rejection logs the response body when read and otherwise the request text |
| `Http.SuccessReadsBodyExcept204` | lib/logstash/outputs/influxdb.rb:325-327 | every 2xx status other than 204 has its body read |
| `Http.NoContentAcceptedWithoutReading` | lib/logstash/outputs/influxdb.rb:237-252 | among 2xx statuses, exactly 204 is accepted even when reading the body would hit end-of-stream |
| `Http.SkippedBodyFailureLogsRequest` | lib/logstash/outputs/influxdb.rb:252-255 | a 1xx or 304 reply is reported as an error whose logged response body is the request text |

## Left out

- HTTP delivery (`FTW::Agent`, `post!`, reading the body in chunks) and the URL and credentials built in `register`: network I/O through a library not shown. `Http.Post` takes the exchange's result as input.
- Http.Post: only `EOFError` is rescued (`:229`, `:243`). Any other exception from `post!` or `read_body` leaves `post` and is not a case of `Http.Exchange`.
- Buffering and flush triggering (`buffer_initialize`, `buffer_receive`, `buffer_flush`, the size and idle-time triggers, `teardown`): they live in the Stud buffer library and are timer- and thread-driven. The model stops at the sequence of event hashes handed to the buffer and at the envelope of one flush.
- `event.sprintf` and `event.to_hash`: an outside collaborator, given as a `render` parameter and as field texts.
- `to_f` and floating point: `Float(text)` stands for the double read from `text`. The event timestamp, the multipliers and the scaled product are exact reals, so double rounding is not modelled: neither in `1.0/60` and `1.0/3600`, nor in the product before `to_i`. An `ms` or `u` count can therefore be one higher than the program's; for example, at 1.001 s the double product `1.001 * 1000` is `1000.9999999999999`, which `to_i` turns into 1000, while the model gives 1001.
- Values.ToInteger: `Float#to_i` is modelled as `to_i` of the float's text, which differs wherever `to_f` and `to_i` read the text differently (exponents, the `0d` prefix, infinities); in `receive` a float is never converted again, because the coercion table names each column once.
- Values.ParseInt: underscores between digits, which `String#to_i` accepts (`"1_2".to_i == 12`), are not modelled; the `0d` prefix is.
- Values.ParseIntOfDecimal: excludes text after the number that starts with `_`, because Ruby could read on past it and the model does not.
- Values.ParseIntOfPrefixed: excludes text after the number that starts with `_`, for the same reason.
- Pipeline.Receive: under `time_precision => "n"` the program raises on every admitted event; the model buffers the event with its timestamp in nanoseconds (see "## Findings").
- The `rescue` in `coerce_values!`: `to_i` and `to_f` on strings do not raise, so the branch is not reachable from rendered values.
- JSON serialisation of the envelope (`LogStash::Json.dump`) and all logging, including the error log's `@queue` contents.
- The test file's `dowrite`, `send_as_tags`, tag lists, per-database routing and default exclusion of `@version` and `@timestamp`: they belong to a different revision of the plugin than the code modelled.

## Findings

| source | as written | input that shows it | evidently intended | confidence | as-written member | corrected member |
|---|---|---|---|---|---|---|
| lib/logstash/outputs/influxdb.rb:311-317 | the multiplier table has no branch for `n`, so the multiplier is `nil` and the multiplication raises | `time_precision => "n"` (accepted at line 63) and any event | multiply by 1000000000 for nanoseconds | high; not executed | `Precision.NanosecondsAcceptedButFails` | `Precision.TimestampAtPrecisionIntended` |

`Pipeline.Receive` uses the corrected conversion. It is proved to agree with the
conversion as written on the five other settings, so `receive` differs from the
program only under `n`. There the program raises on every admitted event, and
the model buffers the event with its timestamp in nanoseconds.

=== FILE: fields.dfy ===
/** The two in-place rewrites a data point goes through before it is buffered:
    removal of the excluded columns and type coercion of the listed columns. */
module Fields {
  import opened Wrappers
  import opened RubyHash
  import opened Values

  /** A data point: column name to value, in insertion order. */
  type Point = Hash<Value>

  /** The entries of `h` whose key is not in `s`, in their order: the reference
      meaning of removing a set of columns. */
  function Without<V>(h: Hash<V>, s: set<string>): (r: Hash<V>)
    ensures forall k :: Lookup(r, k) == if k in s then None else Lookup(h, k)
    ensures Distinct(h) ==> Distinct(r)
  {
    if h == [] then []
    else if h[0].key in s then Without(h[1..], s)
    else
      var rest := Without(h[1..], s);
      assert ([h[0]] + rest)[1..] == rest;
      [h[0]] + rest
  }

  /** `exclude_fields!`: delete each listed column in turn. */
  function ExcludeFields<V>(excl: seq<string>, h: Hash<V>): (r: Hash<V>)
    ensures forall k :: Lookup(r, k) == if k in excl then None else Lookup(h, k)
    ensures Distinct(h) ==> Distinct(r)
  {
    if excl == [] then h else ExcludeFields(excl[1..], Delete(h, excl[0]))
  }

  lemma {:induction false} DeleteIsWithout<V>(h: Hash<V>, k: string)
    ensures Delete(h, k) == Without(h, {k})
  {
    if h != [] {
      DeleteIsWithout(h[1..], k);
    }
  }

  lemma {:induction false} WithoutTwice<V>(h: Hash<V>, a: set<string>, b: set<string>)
    ensures Without(Without(h, a), b) == Without(h, a + b)
  {
    if h != [] {
      WithoutTwice(h[1..], a, b);
      if h[0].key !in a {
        assert Without(h, a) == [h[0]] + Without(h[1..], a);
        assert Without(h, a)[1..] == Without(h[1..], a);
      }
    }
  }

  function Elements(xs: seq<string>): set<string> {
    set x | x in xs
  }

  /** Deleting the listed columns one by one keeps exactly the other entries, each
      with its value and in its original order. */
  lemma {:induction false} ExcludeFieldsIsWithout<V>(excl: seq<string>, h: Hash<V>)
    ensures ExcludeFields(excl, h) == Without(h, Elements(excl))
  {
    if excl == [] {
      assert Elements(excl) == {};
      WithoutNothing(h);
    } else {
      DeleteIsWithout(h, excl[0]);
      ExcludeFieldsIsWithout(excl[1..], Delete(h, excl[0]));
      WithoutTwice(h, {excl[0]}, Elements(excl[1..]));
      assert {excl[0]} + Elements(excl[1..]) == Elements(excl);
    }
  }

  lemma {:induction false} WithoutNothing<V>(h: Hash<V>)
    ensures Without(h, {}) == h
  {
    if h != [] {
      WithoutNothing(h[1..]);
    }
  }

  /** Excluding twice is excluding once. */
  lemma ExcludeFieldsIdempotent<V>(excl: seq<string>, h: Hash<V>)
    ensures ExcludeFields(excl, ExcludeFields(excl, h)) == ExcludeFields(excl, h)
  {
    ExcludeFieldsIsWithout(excl, h);
    ExcludeFieldsIsWithout(excl, ExcludeFields(excl, h));
    WithoutTwice(h, Elements(excl), Elements(excl));
    assert Elements(excl) + Elements(excl) == Elements(excl);
  }

  /** Only the set of excluded names matters, not their order or repetitions. */
  lemma ExcludeFieldsListOrderIrrelevant<V>(e1: seq<string>, e2: seq<string>, h: Hash<V>)
    requires forall x :: x in e1 <==> x in e2
    ensures ExcludeFields(e1, h) == ExcludeFields(e2, h)
  {
    ExcludeFieldsIsWithout(e1, h);
    ExcludeFieldsIsWithout(e2, h);
    assert Elements(e1) == Elements(e2);
  }

  /** One column's coercion: `"integer"` and `"float"` convert, any other type
      name is reported and leaves the value as it is. */
  function Convert(ty: string, v: Value): Value {
    if ty == "integer" then ToInteger(v)
    else if ty == "float" then ToFloat(v)
    else v
  }

  /** `coerce_values!`: walk the coercion table; each column the point holds is
      replaced by its converted value. */
  function CoerceValues(table: Hash<string>, h: Point): (r: Point)
    ensures Keys(r) == Keys(h)
    ensures forall k :: k !in Keys(table) ==> Lookup(r, k) == Lookup(h, k)
    ensures Distinct(h) ==> Distinct(r)
  {
    if table == [] then h
    else
      var col := table[0].key;
      var next := match Lookup(h, col)
        case Some(v) => Store(h, col, Convert(table[0].value, v))
        case None => h;
      CoerceValues(table[1..], next)
  }

  /** The coercion the table prescribes for one entry. */
  function CoerceEntry(table: Hash<string>, e: Entry<Value>): Entry<Value> {
    match Lookup(table, e.key)
    case Some(ty) => Entry(e.key, Convert(ty, e.value))
    case None => e
  }

  /** Reference reading of coercion: every entry converted on its own. */
  function CoercePointwise(table: Hash<string>, h: Point): (r: Point)
    ensures |r| == |h|
  {
    seq(|h|, i requires 0 <= i < |h| => CoerceEntry(table, h[i]))
  }

  /** A table entry for a column the point lacks contributes nothing. */
  lemma PointwiseSkipsAbsentColumn(table: Hash<string>, h: Point)
    requires table != [] && Distinct(table)
    requires Lookup(h, table[0].key).None?
    ensures CoercePointwise(table, h) == CoercePointwise(table[1..], h)
  {
    forall i | 0 <= i < |h|
      ensures CoerceEntry(table, h[i]) == CoerceEntry(table[1..], h[i])
    {
      KeysAt(h, i);
    }
  }

  /** Converting the first table column in place, then applying the rest of the
      table pointwise, is applying the whole table pointwise. */
  lemma PointwiseAfterFirstColumn(table: Hash<string>, h: Point, i: nat)
    requires table != [] && Distinct(table) && Distinct(h)
    requires i < |h| && h[i].key == table[0].key
    ensures CoercePointwise(table[1..], h[i := Entry(h[i].key, Convert(table[0].value, h[i].value))])
         == CoercePointwise(table, h)
  {
    var col, ty, rest := table[0].key, table[0].value, table[1..];
    var next := h[i := Entry(col, Convert(ty, h[i].value))];
    assert Lookup(rest, col) == None;
    forall j | 0 <= j < |h|
      ensures CoerceEntry(rest, next[j]) == CoerceEntry(table, h[j])
    {
      if j != i {
        DistinctKeys(h, i, j);
      }
    }
  }

  /** Walking the table equals converting each entry independently, because a
      table (a Ruby Hash) names each column once. */
  lemma {:induction false} CoerceValuesIsPointwise(table: Hash<string>, h: Point)
    requires Distinct(table) && Distinct(h)
    ensures CoerceValues(table, h) == CoercePointwise(table, h)
  {
    if table == [] {
      assert CoercePointwise(table, h) == h;
    } else {
      var col, ty, rest := table[0].key, table[0].value, table[1..];
      match Lookup(h, col)
      case None =>
        assert CoerceValues(table, h) == CoerceValues(rest, h);
        CoerceValuesIsPointwise(rest, h);
        PointwiseSkipsAbsentColumn(table, h);
      case Some(v) =>
        var i :| 0 <= i < |h| && h[i] == Entry(col, v);
        var next := Store(h, col, Convert(ty, v));
        assert CoerceValues(table, h) == CoerceValues(rest, next);
        StoreExisting(h, i, Convert(ty, v));
        CoerceValuesIsPointwise(rest, next);
        PointwiseAfterFirstColumn(table, h, i);
    }
  }

  /** What coercion does to one column: absent stays absent; present and listed
      is converted by its type; present and unlisted keeps its value. */
  lemma CoerceValuesLookup(table: Hash<string>, h: Point, k: string)
    requires Distinct(table) && Distinct(h)
    ensures Lookup(CoerceValues(table, h), k) ==
      match Lookup(h, k)
      case None => None
      case Some(v) => Some(match Lookup(table, k) case Some(ty) => Convert(ty, v) case None => v)
  {
    CoerceValuesIsPointwise(table, h);
    var r := CoercePointwise(table, h);
    if Lookup(h, k).Some? {
      var i :| 0 <= i < |h| && h[i] == Entry(k, Lookup(h, k).value);
      assert r[i] == CoerceEntry(table, h[i]);
      assert Keys(r) == Keys(h);
      LookupOfDistinct(r, i);
    }
  }

  /** A type other than `"integer"` or `"float"` leaves the column untouched. */
  lemma CoerceUnknownTypeKeepsValue(table: Hash<string>, h: Point, k: string)
    requires Distinct(table) && Distinct(h)
    requires Lookup(table, k).Some?
    requires Lookup(table, k).value != "integer" && Lookup(table, k).value != "float"
    ensures Lookup(CoerceValues(table, h), k) == Lookup(h, k)
  {
    CoerceValuesLookup(table, h, k);
  }

  /** Coercing an already coerced point changes nothing. */
  lemma CoerceValuesIdempotent(table: Hash<string>, h: Point)
    requires Distinct(table) && Distinct(h)
    ensures CoerceValues(table, CoerceValues(table, h)) == CoerceValues(table, h)
  {
    var once := CoerceValues(table, h);
    CoerceValuesIsPointwise(table, h);
    CoerceValuesIsPointwise(table, once);
    forall i | 0 <= i < |once|
      ensures CoerceEntry(table, once[i]) == once[i]
    {
      assert once[i] == CoerceEntry(table, h[i]);
    }
  }
}

=== FILE: http.dfy ===
/** How a write request's HTTP exchange is judged: whether the response body is
    read, and whether the write counts as accepted. */
module Http {

  /** `read_body?`: responses that by section 3.3.3 of RFC 7230 carry no body
      (every 1xx, 204 and 304) are not read. */
  predicate ReadBody(status: int) {
    !(status == 204 || status == 304 || 100 <= status <= 199)
  }

  /** The success test of `post`: the status lies in 200..299. */
  predicate IsSuccess(status: int) {
    200 <= status <= 299
  }

  /** Reading the response body either yields its text or hits end-of-stream. */
  datatype BodyRead = Body(text: string) | BodyEOF

  /** What the HTTP agent produced: end-of-stream before the response header was
      read, or a response with its status and what reading its body would give. */
  datatype Exchange = HeaderEOF | Response(status: int, body: BodyRead)

  /** How `post` ends: the flush abandoned on end-of-stream, the write reported
      as an error (with the text logged as the response body), or accepted. */
  datatype PostOutcome = Aborted | Rejected(status: int, loggedBody: string) | Accepted(status: int)

  /** `post(request)` against a given exchange. When the body is not read, the
      local `body` still holds the request text, and that is what the error log
      shows as the response body. */
  function Post(request: string, ex: Exchange): (r: PostOutcome)
    ensures r.Accepted? <==> ex.Response? && IsSuccess(ex.status) && (ReadBody(ex.status) ==> ex.body.Body?)
    ensures r.Aborted? <==> ex.HeaderEOF? || (ReadBody(ex.status) && ex.body.BodyEOF?)
    ensures r.Rejected? ==> r.status == ex.status && !IsSuccess(ex.status)
    ensures r.Rejected? ==> r.loggedBody == if ReadBody(ex.status) then ex.body.text else request
  {
    match ex
    case HeaderEOF => Aborted
    case Response(status, reader) =>
      if ReadBody(status) && reader.BodyEOF? then Aborted
      else
        var body := if ReadBody(status) then reader.text else request;
        if IsSuccess(status) then Accepted(status) else Rejected(status, body)
  }

  /** Every success status other than 204 has its body read. */
  lemma SuccessReadsBodyExcept204(status: int)
    requires IsSuccess(status) && status != 204
    ensures ReadBody(status)
  {
  }

  /** A 204 reply is accepted whatever the body reader would do, because the
      body is never read; it is the only success status with that property. */
  lemma NoContentAcceptedWithoutReading(request: string, status: int)
    requires IsSuccess(status)
    ensures (status == 204) <==> Post(request, Response(status, BodyEOF)).Accepted?
  {
  }

  /** A reply whose body is skipped but which is not 204 (a 1xx or a 304) is
      reported as an error, and the log shows the request text as its body. */
  lemma SkippedBodyFailureLogsRequest(request: string, status: int, reader: BodyRead)
    requires !ReadBody(status) && status != 204
    ensures Post(request, Response(status, reader)) == Rejected(status, request)
  {
  }
}

=== FILE: pipeline.dfy ===
/** The per-event pipeline of the InfluxDB output (`receive`) and the envelope a
    flush wraps the buffered event hashes in. */
module Pipeline {
  import opened Wrappers
  import opened RubyHash
  import opened Values
  import opened Precision
  import opened Fields

  /** The settings the pipeline reads. Hash-valued settings keep their insertion
      order; `timePrecision` has already passed validation. */
  datatype Config = Config(
    db: string,
    retentionPolicy: string,
    series: string,
    dataPoints: Hash<string>,
    allowTimeOverride: bool,
    timePrecision: Precision,
    coerceValues: Hash<string>,
    useEventFieldsForDataPoints: bool,
    excludeFields: seq<string>)

  /** The settings' declared defaults. */
  function DefaultConfig(): Config {
    Config("statistics", "default", "logstash", [], false, Milliseconds, [], false, [])
  }

  /** An incoming event: its timestamp in epoch seconds, its fields (each value
      as the text `to_s` gives it) and whether the output's event filter admits it. */
  datatype Event = Event(timestamp: real, fields: Hash<string>, selected: bool)

  /** The event's template renderer (`event.sprintf`), supplied from outside. */
  type Render = string -> string

  /** What is handed to the buffer for one event. */
  datatype EventHash = EventHash(name: string, time: Value, precision: string, fields: Point)

  /** How `receive` ends: the event is filtered out, or an event hash is buffered. */
  datatype Outcome = Skipped | Buffered(eventHash: EventHash)

  /** Where the data points come from: the whole event, or the configured templates. */
  function PointSource(cfg: Config, ev: Event): Hash<string> {
    if cfg.useEventFieldsForDataPoints then ev.fields else cfg.dataPoints
  }

  /** Every key and value rendered against the event, in source order. */
  function RenderPairs(src: Hash<string>, render: Render): (ps: seq<(string, Value)>)
    ensures |ps| == |src|
    ensures forall i :: 0 <= i < |src| ==> ps[i] == (render(src[i].key), Str(render(src[i].value)))
  {
    seq(|src|, i requires 0 <= i < |src| => (render(src[i].key), Str(render(src[i].value))))
  }

  /** `create_point_from_event`: a column for every rendered source key, holding
      the rendered value of the last source entry whose key renders to it. */
  function CreatePoint(cfg: Config, ev: Event, render: Render): (p: Point)
    ensures Distinct(p)
    ensures forall k :: k in Keys(p) <==>
      exists i :: 0 <= i < |PointSource(cfg, ev)| && render(PointSource(cfg, ev)[i].key) == k
    ensures forall i ::
              (0 <= i < |PointSource(cfg, ev)| &&
               forall j :: i < j < |PointSource(cfg, ev)| ==>
                 render(PointSource(cfg, ev)[j].key) != render(PointSource(cfg, ev)[i].key))
              ==> Lookup(p, render(PointSource(cfg, ev)[i].key)) == Some(Str(render(PointSource(cfg, ev)[i].value)))
  {
    var src := PointSource(cfg, ev);
    var ps := RenderPairs(src, render);
    var p := FromPairs(ps);
    forall k ensures k in Keys(p) <==> exists i :: 0 <= i < |src| && render(src[i].key) == k {
      if k in PairKeys(ps) {
        var i :| 0 <= i < |ps| && PairKeys(ps)[i] == k;
        PairKeysAt(ps, i);
      }
      if exists i :: 0 <= i < |src| && render(src[i].key) == k {
        var i :| 0 <= i < |src| && render(src[i].key) == k;
        PairKeysAt(ps, i);
      }
    }
    forall i | 0 <= i < |src| && (forall j :: i < j < |src| ==> render(src[j].key) != render(src[i].key))
      ensures Lookup(p, render(src[i].key)) == Some(Str(render(src[i].value)))
    {
      LastValueAt(ps, i);
    }
    p
  }

  /** The `time` column with `allow_time_override`: its value replaces the event
      timestamp and the column leaves the point. Without the setting the event
      timestamp stands and the point is kept whole (an error is only logged). */
  function HandleTime(allowOverride: bool, eventTime: int, p: Point): (r: (Value, Point))
    ensures allowOverride && HasKey(p, "time") ==>
      r.0 == Lookup(p, "time").value && !HasKey(r.1, "time")
    ensures !(allowOverride && HasKey(p, "time")) ==> r == (Int(eventTime), p)
    ensures forall k :: k != "time" ==> Lookup(r.1, k) == Lookup(p, k)
  {
    if allowOverride && HasKey(p, "time") then (Lookup(p, "time").value, Delete(p, "time"))
    else (Int(eventTime), p)
  }

  /** `receive`: convert the timestamp, build the point, settle `time`, drop the
      excluded columns, coerce, and wrap the result with the series name. */
  function Receive(cfg: Config, ev: Event, render: Render): (r: Outcome)
    ensures r.Skipped? <==> !ev.selected
    ensures r.Buffered? ==> r.eventHash.name == render(cfg.series)
    ensures r.Buffered? ==> r.eventHash.precision == Name(cfg.timePrecision)
    ensures r.Buffered? ==> Distinct(r.eventHash.fields)
    ensures r.Buffered? ==> forall k :: k in cfg.excludeFields ==> !HasKey(r.eventHash.fields, k)
  {
    if !ev.selected then Skipped
    else
      var t := TimestampAtPrecisionIntended(ev.timestamp, cfg.timePrecision);
      var point := CreatePoint(cfg, ev, render);
      var (time, afterTime) := HandleTime(cfg.allowTimeOverride, t, point);
      var afterExclude := ExcludeFields(cfg.excludeFields, afterTime);
      var coerced := CoerceValues(cfg.coerceValues, afterExclude);
      Buffered(EventHash(render(cfg.series), time, Name(cfg.timePrecision), coerced))
  }

  /** Whether a column leaves the pipeline: present in the built point, not taken
      as the overriding time, and not excluded. */
  predicate Survives(cfg: Config, point: Point, k: string) {
    HasKey(point, k) && !(cfg.allowTimeOverride && k == "time") && k !in cfg.excludeFields
  }

  /** The columns of a buffered event hash, and their values: exactly the
      surviving columns, each holding its rendered value converted by its type in
      the coercion table (or kept when the table does not list it). */
  lemma ReceiveFields(cfg: Config, ev: Event, render: Render, k: string)
    requires Distinct(cfg.coerceValues)
    requires ev.selected
    ensures Receive(cfg, ev, render).Buffered?
    ensures var fields := Receive(cfg, ev, render).eventHash.fields;
            var point := CreatePoint(cfg, ev, render);
            && (HasKey(fields, k) <==> Survives(cfg, point, k))
            && (HasKey(fields, k) ==>
                  Lookup(fields, k).value == (match Lookup(cfg.coerceValues, k)
                                              case Some(ty) => Convert(ty, Lookup(point, k).value)
                                              case None => Lookup(point, k).value))
  {
    var t := TimestampAtPrecisionIntended(ev.timestamp, cfg.timePrecision);
    var point := CreatePoint(cfg, ev, render);
    var (time, afterTime) := HandleTime(cfg.allowTimeOverride, t, point);
    assert Distinct(afterTime);
    var afterExclude := ExcludeFields(cfg.excludeFields, afterTime);
    CoerceValuesLookup(cfg.coerceValues, afterExclude, k);
  }

  /** With `allow_time_override` and a `time` column, the event hash's time is
      that column's rendered value, unconverted, and without one it is the
      converted event timestamp; `time` is never among the fields, even when it
      is also listed for exclusion. */
  lemma TimeOverrideTakesColumn(cfg: Config, ev: Event, render: Render)
    requires ev.selected
    requires cfg.allowTimeOverride
    ensures Receive(cfg, ev, render).Buffered?
    ensures HasKey(CreatePoint(cfg, ev, render), "time") ==>
            Receive(cfg, ev, render).eventHash.time == Lookup(CreatePoint(cfg, ev, render), "time").value
    ensures !HasKey(CreatePoint(cfg, ev, render), "time") ==>
            Receive(cfg, ev, render).eventHash.time ==
            Int(TimestampAtPrecisionIntended(ev.timestamp, cfg.timePrecision))
    ensures !HasKey(Receive(cfg, ev, render).eventHash.fields, "time")
  {
    var t := TimestampAtPrecisionIntended(ev.timestamp, cfg.timePrecision);
    var point := CreatePoint(cfg, ev, render);
    var (time, afterTime) := HandleTime(cfg.allowTimeOverride, t, point);
    var afterExclude := ExcludeFields(cfg.excludeFields, afterTime);
    assert !HasKey(afterExclude, "time");
    assert "time" !in Keys(afterExclude);
  }

  /** Without `allow_time_override` the event hash's time is the converted event
      timestamp, and a `time` column stays among the fields unless excluded. */
  lemma NoOverrideKeepsEventTime(cfg: Config, ev: Event, render: Render)
    requires ev.selected
    requires !cfg.allowTimeOverride
    ensures Receive(cfg, ev, render).Buffered?
    ensures Receive(cfg, ev, render).eventHash.time ==
            Int(TimestampAtPrecisionIntended(ev.timestamp, cfg.timePrecision))
    ensures HasKey(CreatePoint(cfg, ev, render), "time") && "time" !in cfg.excludeFields
            ==> HasKey(Receive(cfg, ev, render).eventHash.fields, "time")
  {
    var t := TimestampAtPrecisionIntended(ev.timestamp, cfg.timePrecision);
    var point := CreatePoint(cfg, ev, render);
    var afterExclude := ExcludeFields(cfg.excludeFields, point);
    assert Keys(CoerceValues(cfg.coerceValues, afterExclude)) == Keys(afterExclude);
  }

  /** Settings with templates for `foo`, `bar` and `time` and time override on. */
  function TemplatedConfig(): Config {
    DefaultConfig().(
      allowTimeOverride := true,
      dataPoints := [Entry("foo", "%{foo}"), Entry("bar", "%{bar}"), Entry("time", "%{time}")])
  }

  /** Rendering against an event whose `foo`, `bar` and `time` are 1, 2 and 3. */
  function TemplatedRender(s: string): string {
    if s == "%{foo}" then "1" else if s == "%{bar}" then "2" else if s == "%{time}" then "3" else s
  }

  function TemplatedEvent(ts: real): Event {
    Event(ts, [Entry("foo", "1"), Entry("bar", "2"), Entry("time", "3"), Entry("type", "generator")], true)
  }

  /** An event with the values `foo` 1, `bar` 2, `time` 3, rendered through
      templates for those three columns with time override on, gives the series
      `logstash`, the time "3" as written and the fields `foo` and `bar` in that
      order. */
  lemma TemplatedEventWithTimeOverride(ts: real)
    ensures Receive(TemplatedConfig(), TemplatedEvent(ts), TemplatedRender) ==
      Buffered(EventHash("logstash", Str("3"), "ms", [Entry("foo", Str("1")), Entry("bar", Str("2"))]))
  {
    var cfg := TemplatedConfig();
    var ev := TemplatedEvent(ts);
    var p2 := [Entry("foo", Str("1")), Entry("bar", Str("2"))];
    var t := TimestampAtPrecisionIntended(ts, Milliseconds);
    ReceiveSteps(cfg, ev, TemplatedRender);
    TemplatedPoint(ts);
    TemplatedTimeTaken(t);
    assert ExcludeFields(cfg.excludeFields, p2) == p2;
    assert CoerceValues(cfg.coerceValues, p2) == p2;
  }

  /** `Receive` on an admitted event, step by step. */
  lemma ReceiveSteps(cfg: Config, ev: Event, render: Render)
    requires ev.selected
    ensures var t := TimestampAtPrecisionIntended(ev.timestamp, cfg.timePrecision);
            var settled := HandleTime(cfg.allowTimeOverride, t, CreatePoint(cfg, ev, render));
            Receive(cfg, ev, render) == Buffered(EventHash(render(cfg.series), settled.0, Name(cfg.timePrecision),
              CoerceValues(cfg.coerceValues, ExcludeFields(cfg.excludeFields, settled.1))))
  {
  }

  lemma TemplatedPairs()
    ensures RenderPairs(TemplatedConfig().dataPoints, TemplatedRender)
         == [("foo", Str("1")), ("bar", Str("2")), ("time", Str("3"))]
  {
  }

  lemma TemplatedFromPairs(ps: seq<(string, Value)>)
    requires ps == [("foo", Str("1")), ("bar", Str("2")), ("time", Str("3"))]
    ensures FromPairs(ps) == [Entry("foo", Str("1")), Entry("bar", Str("2")), Entry("time", Str("3"))]
  {
    assert DistinctPairKeys(ps) by {
      assert "foo" != "bar" && "foo" != "time" && "bar" != "time";
    }
    FromPairsOfDistinctKeys(ps);
  }

  lemma TemplatedPoint(ts: real)
    ensures CreatePoint(TemplatedConfig(), TemplatedEvent(ts), TemplatedRender)
         == [Entry("foo", Str("1")), Entry("bar", Str("2")), Entry("time", Str("3"))]
  {
    TemplatedPairs();
    TemplatedFromPairs(RenderPairs(TemplatedConfig().dataPoints, TemplatedRender));
  }

  lemma TemplatedTimeTaken(t: int)
    ensures HandleTime(true, t, [Entry("foo", Str("1")), Entry("bar", Str("2")), Entry("time", Str("3"))])
         == (Str("3"), [Entry("foo", Str("1")), Entry("bar", Str("2"))])
  {
    var p3 := [Entry("foo", Str("1")), Entry("bar", Str("2")), Entry("time", Str("3"))];
    assert "foo" != "time" && "bar" != "time";
    assert Lookup(p3, "time") == Some(Str("3"));
    assert Delete([Entry("time", Str("3"))], "time") == [];
    assert Delete(p3[1..], "time") == [Entry("bar", Str("2"))];
    assert Delete(p3, "time") == [Entry("foo", Str("1")), Entry("bar", Str("2"))];
    assert HasKey(p3, "time");
  }

  /** The body of one flush: the configured database and retention policy, and
      the buffered event hashes as `points`. */
  datatype Collection = Collection(database: string, retentionPolicy: string, points: seq<EventHash>)

  /** The envelope `flush` posts; a teardown flush builds the same one. */
  function FlushEnvelope(cfg: Config, events: seq<EventHash>, teardown: bool): (c: Collection)
    ensures c.database == cfg.db && c.retentionPolicy == cfg.retentionPolicy
    ensures |c.points| == |events|
    ensures forall i :: 0 <= i < |events| ==> c.points[i] == events[i]
  {
    Collection(cfg.db, cfg.retentionPolicy, events)
  }

  /** The event hashes a run of `receive` calls hands to the buffer, in order. */
  function Collected(outcomes: seq<Outcome>): seq<EventHash> {
    if outcomes == [] then []
    else if outcomes[0].Buffered? then [outcomes[0].eventHash] + Collected(outcomes[1..])
    else Collected(outcomes[1..])
  }

  /** `receive` applied to each event of a stream, in arrival order. */
  function ReceiveAll(cfg: Config, evs: seq<(Event, Render)>): (outs: seq<Outcome>)
    ensures |outs| == |evs|
    ensures forall i :: 0 <= i < |evs| ==> outs[i] == Receive(cfg, evs[i].0, evs[i].1)
  {
    seq(|evs|, i requires 0 <= i < |evs| => Receive(cfg, evs[i].0, evs[i].1))
  }

  /** Every point of an envelope built from received events carries the
      configured precision, has no repeated column and holds no excluded column. */
  lemma {:induction false} EnvelopeOfReceived(cfg: Config, evs: seq<(Event, Render)>, teardown: bool)
    ensures var c := FlushEnvelope(cfg, Collected(ReceiveAll(cfg, evs)), teardown);
      forall i :: 0 <= i < |c.points| ==>
        && c.points[i].precision == Name(cfg.timePrecision)
        && Distinct(c.points[i].fields)
        && forall k :: k in cfg.excludeFields ==> !HasKey(c.points[i].fields, k)
  {
    var outs := ReceiveAll(cfg, evs);
    CollectedOfReceived(cfg, outs);
    var c := FlushEnvelope(cfg, Collected(outs), teardown);
    forall i | 0 <= i < |c.points| ensures WellFormedHash(cfg, c.points[i]) {
      assert c.points[i] in Collected(outs);
    }
  }

  predicate WellFormedHash(cfg: Config, e: EventHash) {
    && e.precision == Name(cfg.timePrecision)
    && Distinct(e.fields)
    && forall k :: k in cfg.excludeFields ==> !HasKey(e.fields, k)
  }

  lemma {:induction false} CollectedOfReceived(cfg: Config, outs: seq<Outcome>)
    requires forall i :: 0 <= i < |outs| ==> outs[i].Buffered? ==> WellFormedHash(cfg, outs[i].eventHash)
    ensures forall e :: e in Collected(outs) ==> WellFormedHash(cfg, e)
  {
    if outs != [] {
      CollectedOfReceived(cfg, outs[1..]);
    }
  }

  lemma CollectedCons(o: Outcome, os: seq<Outcome>)
    ensures Collected([o] + os) == (if o.Buffered? then [o.eventHash] else []) + Collected(os)
  {
    assert ([o] + os)[1..] == os;
  }

  lemma ReceiveAllCons(cfg: Config, e: (Event, Render), es: seq<(Event, Render)>)
    ensures ReceiveAll(cfg, [e] + es) == [Receive(cfg, e.0, e.1)] + ReceiveAll(cfg, es)
  {
  }

  /** Every admitted event reaches the buffer and nothing else does: the hashes
      collected from a stream are those of its admitted events, one each, in
      arrival order. */
  lemma {:induction false} CollectedIsAdmitted(cfg: Config, evs: seq<(Event, Render)>)
    ensures |Collected(ReceiveAll(cfg, evs))| == |Admitted(evs)|
    ensures Collected(ReceiveAll(cfg, evs)) == Collected(ReceiveAll(cfg, Admitted(evs)))
    ensures forall i :: 0 <= i < |Admitted(evs)| ==>
              Collected(ReceiveAll(cfg, evs))[i] == Receive(cfg, Admitted(evs)[i].0, Admitted(evs)[i].1).eventHash
  {
    CollectedInOrder(cfg, evs);
    if evs != [] {
      var e, rest := evs[0], evs[1..];
      assert evs == [e] + rest;
      ReceiveAllCons(cfg, e, rest);
      CollectedCons(Receive(cfg, e.0, e.1), ReceiveAll(cfg, rest));
      CollectedIsAdmitted(cfg, rest);
      if e.0.selected {
        assert Admitted(evs) == [e] + Admitted(rest);
        ReceiveAllCons(cfg, e, Admitted(rest));
        CollectedCons(Receive(cfg, e.0, e.1), ReceiveAll(cfg, Admitted(rest)));
      } else {
        assert Admitted(evs) == Admitted(rest);
      }
    }
  }

  /** The `i`-th collected hash is the one `receive` made for the `i`-th admitted event. */
  lemma {:induction false} CollectedInOrder(cfg: Config, evs: seq<(Event, Render)>)
    ensures |Collected(ReceiveAll(cfg, evs))| == |Admitted(evs)|
    ensures forall i :: 0 <= i < |Admitted(evs)| ==>
              Collected(ReceiveAll(cfg, evs))[i] == Receive(cfg, Admitted(evs)[i].0, Admitted(evs)[i].1).eventHash
  {
    if evs != [] {
      var e, rest := evs[0], evs[1..];
      assert evs == [e] + rest;
      ReceiveAllCons(cfg, e, rest);
      CollectedCons(Receive(cfg, e.0, e.1), ReceiveAll(cfg, rest));
      CollectedInOrder(cfg, rest);
      if e.0.selected {
        assert Admitted(evs) == [e] + Admitted(rest);
      } else {
        assert Admitted(evs) == Admitted(rest);
      }
    }
  }

  /** The events the output's filter admits, in arrival order. */
  function Admitted(evs: seq<(Event, Render)>): (r: seq<(Event, Render)>)
    ensures forall i :: 0 <= i < |r| ==> r[i].0.selected
    ensures forall x :: x in r ==> x in evs
  {
    if evs == [] then []
    else if evs[0].0.selected then [evs[0]] + Admitted(evs[1..])
    else Admitted(evs[1..])
  }
}

=== FILE: precision.dfy ===
/** The configured time precision and the conversion of an event timestamp
    (epoch seconds with a fraction) into an integer count of that unit. */
module Precision {
  import opened Wrappers

  /** The values the `time_precision` setting accepts: n, u, ms, s, m, h. */
  datatype Precision = Nanoseconds | Microseconds | Milliseconds | Seconds | Minutes | Hours

  /** The setting's spelling, which is also what an event hash carries as `precision`. */
  function Name(p: Precision): string {
    match p
    case Nanoseconds => "n"
    case Microseconds => "u"
    case Milliseconds => "ms"
    case Seconds => "s"
    case Minutes => "m"
    case Hours => "h"
  }

  /** Validation of the setting: only the six spellings are accepted. */
  function Parse(s: string): (r: Option<Precision>)
    ensures r.Some? <==> s in {"n", "u", "ms", "s", "m", "h"}
  {
    if s == "n" then Some(Nanoseconds)
    else if s == "u" then Some(Microseconds)
    else if s == "ms" then Some(Milliseconds)
    else if s == "s" then Some(Seconds)
    else if s == "m" then Some(Minutes)
    else if s == "h" then Some(Hours)
    else None
  }

  /** Validation and spelling are inverse to each other. */
  lemma ParseName(p: Precision, s: string)
    ensures Parse(Name(p)) == Some(p)
    ensures Parse(s) == Some(p) ==> Name(p) == s
  {
  }

  /** The factor applied to epoch seconds; the nanosecond setting has none (`nil`). */
  function Multiplier(p: Precision): Option<real> {
    match p
    case Hours => Some(1.0 / 3600.0)
    case Minutes => Some(1.0 / 60.0)
    case Seconds => Some(1.0)
    case Milliseconds => Some(1000.0)
    case Microseconds => Some(1000000.0)
    case Nanoseconds => None
  }

  /** `n` is `x` with its fractional part cut off, rounding toward zero. */
  predicate TruncatedFrom(n: int, x: real) {
    && (x >= 0.0 ==> n as real <= x < n as real + 1.0)
    && (x < 0.0 ==> n as real - 1.0 < x <= n as real)
  }

  /** `Float#to_i`. */
  function Trunc(x: real): (n: int)
    ensures TruncatedFrom(n, x)
  {
    if x >= 0.0 then x.Floor else -((-x).Floor)
  }

  /** What raising on `nil` as a multiplier looks like: `Float#*` refuses a nil operand. */
  datatype Error = NilMultiplier

  /** `timestamp_at_precision`: scale epoch seconds by the precision's multiplier and
      truncate; with the nanosecond setting there is no multiplier and the call raises. */
  function TimestampAtPrecision(t: real, p: Precision): (r: Result<int, Error>)
    ensures r.Failure? <==> p == Nanoseconds
    ensures p == Seconds ==> r.Success? && TruncatedFrom(r.value, t)
    ensures p == Milliseconds ==> r.Success? && TruncatedFrom(r.value, t * 1000.0)
    ensures p == Microseconds ==> r.Success? && TruncatedFrom(r.value, t * 1000000.0)
    ensures p == Minutes ==> r.Success? && TruncatedFrom(r.value, t / 60.0)
    ensures p == Hours ==> r.Success? && TruncatedFrom(r.value, t / 3600.0)
  {
    match Multiplier(p)
    case None => Failure(NilMultiplier)
    case Some(m) => Success(Trunc(t * m))
  }

  /** Truncation toward zero never reverses the order of two reals. */
  lemma TruncMonotone(x: real, y: real)
    requires x <= y
    ensures Trunc(x) <= Trunc(y)
  {
  }

  /** A later event never gets a smaller timestamp, at any precision that succeeds. */
  lemma TimestampMonotone(t1: real, t2: real, p: Precision)
    requires t1 <= t2
    requires p != Nanoseconds
    ensures TimestampAtPrecision(t1, p).value <= TimestampAtPrecision(t2, p).value
  {
    match p
    case Hours => TruncMonotone(t1 * (1.0 / 3600.0), t2 * (1.0 / 3600.0));
    case Minutes => TruncMonotone(t1 * (1.0 / 60.0), t2 * (1.0 / 60.0));
    case Seconds => TruncMonotone(t1 * 1.0, t2 * 1.0);
    case Milliseconds => TruncMonotone(t1 * 1000.0, t2 * 1000.0);
    case Microseconds => TruncMonotone(t1 * 1000000.0, t2 * 1000000.0);
  }

  /** On a whole number of seconds the conversion is exact scaling, and the coarse
      units divide with the remainder dropped. */
  lemma WholeSeconds(n: nat)
    ensures TimestampAtPrecision(n as real, Seconds) == Success(n)
    ensures TimestampAtPrecision(n as real, Milliseconds) == Success(n * 1000)
    ensures TimestampAtPrecision(n as real, Microseconds) == Success(n * 1000000)
    ensures TimestampAtPrecision(n as real, Minutes) == Success(n / 60)
    ensures TimestampAtPrecision(n as real, Hours) == Success(n / 3600)
  {
    TruncOfRatio(n, 60);
    TruncOfRatio(n, 3600);
  }

  lemma TruncOfRatio(n: nat, d: nat)
    requires d > 0
    ensures Trunc(n as real * (1.0 / d as real)) == n / d
  {
    var q, r := n / d, n % d;
    assert n == q * d + r;
    assert n as real * (1.0 / d as real) == q as real + (r as real) / (d as real);
    assert 0.0 <= (r as real) / (d as real) < 1.0;
  }

  /** The nanosecond setting passes validation, yet every conversion with it fails. */
  lemma NanosecondsAcceptedButFails(t: real)
    ensures Parse("n") == Some(Nanoseconds)
    ensures TimestampAtPrecision(t, Nanoseconds) == Failure(NilMultiplier)
  {
  }

  /** The conversion with the multiplier the nanosecond setting evidently calls for. */
  function TimestampAtPrecisionIntended(t: real, p: Precision): (r: int)
    ensures p == Nanoseconds ==> TruncatedFrom(r, t * 1000000000.0)
    ensures p != Nanoseconds ==> TimestampAtPrecision(t, p) == Success(r)
  {
    match Multiplier(p)
    case None => Trunc(t * 1000000000.0)
    case Some(m) => Trunc(t * m)
  }

  /** The corrected conversion keeps the order of timestamps at every setting,
      the nanosecond one included. */
  lemma IntendedMonotone(t1: real, t2: real, p: Precision)
    requires t1 <= t2
    ensures TimestampAtPrecisionIntended(t1, p) <= TimestampAtPrecisionIntended(t2, p)
  {
    if p == Nanoseconds {
      TruncMonotone(t1 * 1000000000.0, t2 * 1000000000.0);
    } else {
      TimestampMonotone(t1, t2, p);
    }
  }

  /** On whole seconds the corrected nanosecond conversion is exact scaling by
      10^9, a thousand times the microsecond count. */
  lemma IntendedOnWholeSeconds(n: nat)
    ensures TimestampAtPrecisionIntended(n as real, Nanoseconds) == n * 1000000000
    ensures TimestampAtPrecisionIntended(n as real, Nanoseconds)
         == 1000 * TimestampAtPrecisionIntended(n as real, Microseconds)
  {
    WholeSeconds(n);
  }
}

=== FILE: ruby_hash.dfy ===
/** Ruby's insertion-ordered `Hash` with string keys, as a sequence of entries.
    Assigning to an existing key replaces its value in place; assigning to a new
    key appends it; deleting removes the entry and keeps the order of the rest. */
module RubyHash {
  import opened Wrappers

  datatype Entry<V> = Entry(key: string, value: V)

  type Hash<V> = seq<Entry<V>>

  /** The keys in insertion order. */
  function Keys<V>(h: Hash<V>): (ks: seq<string>)
    ensures |ks| == |h|
  {
    if h == [] then [] else [h[0].key] + Keys(h[1..])
  }

  lemma {:induction false} KeysAt<V>(h: Hash<V>, i: nat)
    requires i < |h|
    ensures Keys(h)[i] == h[i].key
  {
    if i > 0 {
      KeysAt(h[1..], i - 1);
    }
  }

  /** No key occurs twice: what every Ruby Hash satisfies. */
  predicate Distinct<V>(h: Hash<V>) {
    h == [] || (h[0].key !in Keys(h[1..]) && Distinct(h[1..]))
  }

  /** `h[k]` when `h.has_key?(k)`, otherwise `None` (the first entry with that key). */
  function Lookup<V>(h: Hash<V>, k: string): (r: Option<V>)
    ensures r.None? <==> k !in Keys(h)
    ensures r.Some? ==> Entry(k, r.value) in h
  {
    if h == [] then None
    else if h[0].key == k then Some(h[0].value)
    else Lookup(h[1..], k)
  }

  predicate HasKey<V>(h: Hash<V>, k: string) {
    Lookup(h, k).Some?
  }

  /** In a hash without repeated keys, every entry is the one `Lookup` finds. */
  lemma {:induction false} LookupOfDistinct<V>(h: Hash<V>, i: nat)
    requires Distinct(h) && i < |h|
    ensures Lookup(h, h[i].key) == Some(h[i].value)
  {
    if i > 0 {
      assert h[i].key in Keys(h[1..]) by { KeysAt(h[1..], i - 1); }
      LookupOfDistinct(h[1..], i - 1);
    }
  }

  /** The contract of `Store`, for a given result `r` of assigning `v` to `k` in `h`. */
  ghost predicate StoredIn<V>(h: Hash<V>, k: string, v: V, r: Hash<V>) {
    && Lookup(r, k) == Some(v)
    && (forall k' :: k' != k ==> Lookup(r, k') == Lookup(h, k'))
    && Keys(r) == (if k in Keys(h) then Keys(h) else Keys(h) + [k])
    && (Distinct(h) ==> Distinct(r))
  }

  /** Putting an entry with another key in front of both sides keeps `StoredIn`. */
  lemma StoredInCons<V>(e: Entry<V>, t: Hash<V>, k: string, v: V, r: Hash<V>)
    requires e.key != k && StoredIn(t, k, v, r)
    ensures StoredIn([e] + t, k, v, [e] + r)
  {
    LookupCons(e, t);
    LookupCons(e, r);
    KeysConsOf(e, t);
    KeysConsOf(e, r);
    if k !in Keys(t) {
      assert [e.key] + (Keys(t) + [k]) == ([e.key] + Keys(t)) + [k];
    }
    if Distinct([e] + t) {
      DistinctCons(e, t);
      DistinctCons(e, r);
    }
  }

  lemma LookupCons<V>(e: Entry<V>, t: Hash<V>)
    ensures forall k :: Lookup([e] + t, k) == if e.key == k then Some(e.value) else Lookup(t, k)
  {
    assert ([e] + t)[1..] == t;
  }

  lemma KeysConsOf<V>(e: Entry<V>, t: Hash<V>)
    ensures Keys([e] + t) == [e.key] + Keys(t)
  {
    assert ([e] + t)[1..] == t;
  }

  lemma DistinctCons<V>(e: Entry<V>, t: Hash<V>)
    ensures Distinct([e] + t) <==> e.key !in Keys(t) && Distinct(t)
  {
    assert ([e] + t)[1..] == t;
  }

  /** `h[k] = v`: the new value is visible under `k`, every other key is untouched,
      an existing key keeps its position and a new key goes to the end. */
  function Store<V>(h: Hash<V>, k: string, v: V): (r: Hash<V>)
    ensures Lookup(r, k) == Some(v)
    ensures forall k' :: k' != k ==> Lookup(r, k') == Lookup(h, k')
    ensures Keys(r) == if k in Keys(h) then Keys(h) else Keys(h) + [k]
    ensures Distinct(h) ==> Distinct(r)
  {
    if h == [] then [Entry(k, v)]
    else if h[0].key == k then
      assert ([Entry(k, v)] + h[1..])[1..] == h[1..];
      [Entry(k, v)] + h[1..]
    else
      var rest := Store(h[1..], k, v);
      assert h == [h[0]] + h[1..];
      StoredInCons(h[0], h[1..], k, v, rest);
      [h[0]] + rest
  }

  /** Two different entries of a hash without repeated keys have different keys. */
  lemma {:induction false} DistinctKeys<V>(h: Hash<V>, i: nat, j: nat)
    requires Distinct(h) && i < |h| && j < |h| && i != j
    ensures h[i].key != h[j].key
  {
    if i == 0 {
      KeysAt(h[1..], j - 1);
    } else if j == 0 {
      KeysAt(h[1..], i - 1);
    } else {
      DistinctKeys(h[1..], i - 1, j - 1);
    }
  }

  /** Assigning to a key a hash already holds rewrites that one entry in place. */
  lemma {:induction false} StoreExisting<V>(h: Hash<V>, i: nat, v: V)
    requires Distinct(h) && i < |h|
    ensures Store(h, h[i].key, v) == h[i := Entry(h[i].key, v)]
  {
    var k := h[i].key;
    if i > 0 {
      DistinctKeys(h, 0, i);
      StoreCons(h, k, v);
      StoreExisting(h[1..], i - 1, v);
      ConsUpdate(h, i, Entry(k, v));
    }
  }

  lemma StoreCons<V>(h: Hash<V>, k: string, v: V)
    requires h != [] && h[0].key != k
    ensures Store(h, k, v) == [h[0]] + Store(h[1..], k, v)
  {
  }

  lemma ConsUpdate<T>(s: seq<T>, i: nat, x: T)
    requires 0 < i < |s|
    ensures s[i := x] == [s[0]] + s[1..][i - 1 := x]
  {
  }

  /** Assigning to a key a hash does not hold appends one entry. */
  lemma {:induction false} StoreNew<V>(h: Hash<V>, k: string, v: V)
    requires k !in Keys(h)
    ensures Store(h, k, v) == h + [Entry(k, v)]
  {
    if h != [] {
      assert h == [h[0]] + h[1..];
      KeysConsOf(h[0], h[1..]);
      StoreNew(h[1..], k, v);
      ConsSnoc(h, Entry(k, v));
    }
  }

  lemma ConsSnoc<T>(s: seq<T>, x: T)
    requires s != []
    ensures s + [x] == [s[0]] + (s[1..] + [x])
  {
  }

  /** The keys of `ks` that are not `k`, in their order. */
  function Drop(ks: seq<string>, k: string): (r: seq<string>)
    ensures forall x :: x in r <==> x in ks && x != k
  {
    if ks == [] then []
    else if ks[0] == k then Drop(ks[1..], k)
    else [ks[0]] + Drop(ks[1..], k)
  }

  /** `h.delete(k)`: the key disappears, every other key keeps its value and its order. */
  function Delete<V>(h: Hash<V>, k: string): (r: Hash<V>)
    ensures Lookup(r, k) == None
    ensures forall k' :: k' != k ==> Lookup(r, k') == Lookup(h, k')
    ensures Keys(r) == Drop(Keys(h), k)
    ensures Distinct(h) ==> Distinct(r)
  {
    if h == [] then []
    else
      var rest := Delete(h[1..], k);
      if h[0].key == k then rest
      else
        assert ([h[0]] + rest)[1..] == rest;
        [h[0]] + rest
  }

  /** The keys of a list of pairs, in order. */
  function PairKeys<V>(ps: seq<(string, V)>): (ks: seq<string>)
    ensures |ks| == |ps|
  {
    if ps == [] then [] else PairKeys(ps[..|ps| - 1]) + [ps[|ps| - 1].0]
  }

  /** The value of the last pair of `ps` whose key is `k`: the reference reading of
      `Hash[ps]`, where a later pair for the same key overwrites an earlier one. */
  function LastValue<V>(ps: seq<(string, V)>, k: string): Option<V> {
    if ps == [] then None
    else if ps[|ps| - 1].0 == k then Some(ps[|ps| - 1].1)
    else LastValue(ps[..|ps| - 1], k)
  }

  /** The pair at `i` is the last one for its key, so it supplies the value. */
  lemma {:induction false} LastValueAt<V>(ps: seq<(string, V)>, i: nat)
    requires i < |ps|
    requires forall j :: i < j < |ps| ==> ps[j].0 != ps[i].0
    ensures LastValue(ps, ps[i].0) == Some(ps[i].1)
  {
    if i < |ps| - 1 {
      LastValueAt(ps[..|ps| - 1], i);
    }
  }

  lemma {:induction false} PairKeysAt<V>(ps: seq<(string, V)>, i: nat)
    requires i < |ps|
    ensures PairKeys(ps)[i] == ps[i].0
  {
    if i < |ps| - 1 {
      PairKeysAt(ps[..|ps| - 1], i);
    }
  }

  lemma FromPairsSnoc<V>(ps: seq<(string, V)>, p: (string, V))
    ensures FromPairs(ps + [p]) == Store(FromPairs(ps), p.0, p.1)
  {
    assert (ps + [p])[..|ps|] == ps;
  }

  /** The pairs as entries, in order. */
  function Entries<V>(ps: seq<(string, V)>): (h: Hash<V>)
    ensures |h| == |ps|
  {
    seq(|ps|, i requires 0 <= i < |ps| => Entry(ps[i].0, ps[i].1))
  }

  lemma EntriesSnoc<V>(ps: seq<(string, V)>)
    requires ps != []
    ensures Entries(ps) == Entries(ps[..|ps| - 1]) + [Entry(ps[|ps| - 1].0, ps[|ps| - 1].1)]
  {
  }

  predicate DistinctPairKeys<V>(ps: seq<(string, V)>) {
    forall i, j :: 0 <= i < j < |ps| ==> ps[i].0 != ps[j].0
  }

  /** Pairs whose keys are all different become the hash's entries as they stand. */
  lemma {:induction false} FromPairsOfDistinctKeys<V>(ps: seq<(string, V)>)
    requires DistinctPairKeys(ps)
    ensures FromPairs(ps) == Entries(ps)
  {
    if ps != [] {
      var init, last := ps[..|ps| - 1], ps[|ps| - 1];
      assert DistinctPairKeys(init) by {
        forall i, j | 0 <= i < j < |init| ensures init[i].0 != init[j].0 {
          assert init[i] == ps[i] && init[j] == ps[j];
        }
      }
      FromPairsOfDistinctKeys(init);
      assert last.0 !in PairKeys(init) by {
        forall i | 0 <= i < |init| ensures PairKeys(init)[i] != last.0 {
          PairKeysAt(init, i);
          assert init[i] == ps[i];
        }
      }
      StoreNew(FromPairs(init), last.0, last.1);
      EntriesSnoc(ps);
    }
  }

  /** `Hash[ps]`: the pairs stored one after the other, from first to last. */
  function FromPairs<V>(ps: seq<(string, V)>): (r: Hash<V>)
    ensures Distinct(r)
    ensures forall k :: Lookup(r, k) == LastValue(ps, k)
    ensures forall k :: k in Keys(r) <==> k in PairKeys(ps)
  {
    if ps == [] then []
    else Store(FromPairs(ps[..|ps| - 1]), ps[|ps| - 1].0, ps[|ps| - 1].1)
  }
}

=== FILE: values.dfy ===
/** The values a data point can hold after rendering and coercion, and the
    Ruby conversions `String#to_i`, `Integer#to_s` and `to_f` on them. */
module Values {

  /** A rendered column value. Rendering always yields a string; coercion turns it
      into an integer or a float. Floating point is not modelled: `Float(text)`
      stands for the double that `to_f` reads from `text`. */
  datatype Value = Str(s: string) | Int(i: int) | Float(text: string)

  predicate IsDigit(c: char) {
    '0' <= c <= '9'
  }

  /** The characters Ruby's integer parser skips before a number. */
  predicate IsSpace(c: char) {
    c == ' ' || c == '\t' || c == '\n' || c == '\U{000B}' || c == '\U{000C}' || c == '\r'
  }

  predicate AllDigits(s: string) {
    forall i :: 0 <= i < |s| ==> IsDigit(s[i])
  }

  function DigitValue(c: char): nat
    requires IsDigit(c)
  {
    (c as int - '0' as int) as nat
  }

  function DigitChar(d: nat): (c: char)
    requires d < 10
    ensures IsDigit(c) && DigitValue(c) == d
  {
    ('0' as int + d) as char
  }

  function SkipSpace(s: string): (t: string)
    ensures t == [] || !IsSpace(t[0])
    ensures |t| <= |s|
  {
    if s != [] && IsSpace(s[0]) then SkipSpace(s[1..]) else s
  }

  /** The longest prefix of `s` made of decimal digits. */
  function LeadingDigits(s: string): (ds: string)
    ensures AllDigits(ds) && ds <= s
    ensures |ds| < |s| ==> !IsDigit(s[|ds|])
  {
    if s != [] && IsDigit(s[0]) then [s[0]] + LeadingDigits(s[1..]) else []
  }

  /** The number a digit string denotes in base 10. */
  function DigitsValue(ds: string): nat
    requires AllDigits(ds)
  {
    if ds == [] then 0 else DigitsValue(ds[..|ds| - 1]) * 10 + DigitValue(ds[|ds| - 1])
  }

  /** Whether `t` opens with Ruby's base-10 radix prefix `0d` or `0D`. */
  predicate RadixPrefixed(t: string) {
    |t| >= 2 && t[0] == '0' && (t[1] == 'd' || t[1] == 'D')
  }

  /** The magnitude `to_i` reads after the sign: an optional `0d` prefix, then
      the leading digits; no digits at all read as 0. */
  function Magnitude(t: string): nat {
    if RadixPrefixed(t) then DigitsValue(LeadingDigits(t[2..])) else DigitsValue(LeadingDigits(t))
  }

  /** `String#to_i`: skip blanks, read an optional sign and the magnitude that
      follows; the first character that cannot continue the number ends it. */
  function ParseInt(s: string): int {
    var t := SkipSpace(s);
    if t != [] && t[0] == '-' then -(Magnitude(t[1..]) as int)
    else if t != [] && t[0] == '+' then Magnitude(t[1..])
    else Magnitude(t)
  }

  /** `Integer#to_s` of a non-negative number. */
  function NatDecimal(n: nat): (s: string)
    ensures s != [] && AllDigits(s)
  {
    if n < 10 then [DigitChar(n)] else NatDecimal(n / 10) + [DigitChar(n % 10)]
  }

  /** `Integer#to_s`. */
  function Decimal(i: int): string {
    if i < 0 then "-" + NatDecimal(-i) else NatDecimal(i)
  }

  /** `to_i` on a column value. */
  function ToInteger(v: Value): (r: Value)
    ensures r.Int?
    ensures v.Int? ==> r == v
  {
    match v
    case Str(s) => Int(ParseInt(s))
    case Int(i) => v
    case Float(t) => Int(ParseInt(t))
  }

  /** `to_f` on a column value. */
  function ToFloat(v: Value): (r: Value)
    ensures r.Float?
    ensures v.Float? ==> r == v
  {
    match v
    case Str(s) => Float(s)
    case Int(i) => Float(Decimal(i))
    case Float(t) => v
  }

  lemma {:induction false} DigitsValueOfNatDecimal(n: nat)
    ensures DigitsValue(NatDecimal(n)) == n
  {
    var s := NatDecimal(n);
    if n >= 10 {
      var p := NatDecimal(n / 10);
      assert s[..|s| - 1] == p;
      DigitsValueOfNatDecimal(n / 10);
    }
  }

  lemma {:induction false} LeadingDigitsOfDigits(ds: string, rest: string)
    requires AllDigits(ds)
    requires rest == [] || !IsDigit(rest[0])
    ensures LeadingDigits(ds + rest) == ds
  {
    if ds != [] {
      assert (ds + rest)[1..] == ds[1..] + rest;
      LeadingDigitsOfDigits(ds[1..], rest);
    } else {
      assert ds + rest == rest;
    }
  }

  /** A written number followed by text that cannot continue it is never
      mistaken for the `0d` prefix. */
  lemma NotRadixPrefixed(m: nat, rest: string)
    requires rest == [] || !IsDigit(rest[0])
    requires m == 0 ==> rest == [] || (rest[0] != 'd' && rest[0] != 'D')
    ensures !RadixPrefixed(NatDecimal(m) + rest)
  {
    var d := NatDecimal(m);
    var t := d + rest;
    if m >= 10 {
      assert |d| >= 2 && t[1] == d[1] && IsDigit(d[1]);
    } else if m > 0 {
      assert t[0] == DigitChar(m) && t[0] != '0';
    } else if rest != [] {
      assert t[1] == rest[0];
    }
  }

  /** The magnitude read from a written number is that number. */
  lemma MagnitudeOfNatDecimal(m: nat, rest: string)
    requires rest == [] || !IsDigit(rest[0])
    requires m == 0 ==> rest == [] || (rest[0] != 'd' && rest[0] != 'D')
    ensures Magnitude(NatDecimal(m) + rest) == m
  {
    var d := NatDecimal(m);
    NotRadixPrefixed(m, rest);
    LeadingDigitsOfDigits(d, rest);
    DigitsValueOfNatDecimal(m);
  }

  lemma ParseIntOfNatDecimal(m: nat, rest: string)
    requires rest == [] || !IsDigit(rest[0])
    requires m == 0 ==> rest == [] || (rest[0] != 'd' && rest[0] != 'D')
    ensures ParseInt(NatDecimal(m) + rest) == m
  {
    var d := NatDecimal(m);
    var t := d + rest;
    assert t[0] == d[0];
    assert IsDigit(t[0]) && t[0] != '-' && t[0] != '+' && !IsSpace(t[0]);
    assert SkipSpace(t) == t;
    MagnitudeOfNatDecimal(m, rest);
  }

  lemma ParseIntMinus(u: string)
    ensures ParseInt(['-'] + u) == -(Magnitude(u) as int)
  {
    var t := ['-'] + u;
    assert t[0] == '-' && t[1..] == u;
    assert SkipSpace(t) == t;
  }

  lemma ParseIntNegative(n: int, rest: string)
    requires n < 0
    requires rest == [] || !IsDigit(rest[0])
    ensures ParseInt(['-'] + (NatDecimal(-n) + rest)) == n
  {
    MagnitudeOfNatDecimal(-n, rest);
    ParseIntMinus(NatDecimal(-n) + rest);
  }

  lemma DecimalNegative(n: int, rest: string)
    requires n < 0
    ensures Decimal(n) + rest == ['-'] + (NatDecimal(-n) + rest)
  {
  }

  /** `to_i` reads back what `to_s` wrote, also when the number is followed by
      text that cannot continue it (as `"2.0".to_i == 2`): text that starts with
      neither a digit nor an underscore, and, after a lone `0`, not with the `d`
      of the `0d` prefix. */
  lemma ParseIntOfDecimal(n: int, rest: string)
    requires rest == [] || (!IsDigit(rest[0]) && rest[0] != '_')
    requires n == 0 ==> rest == [] || (rest[0] != 'd' && rest[0] != 'D')
    ensures ParseInt(Decimal(n) + rest) == n
  {
    if n < 0 {
      DecimalNegative(n, rest);
      ParseIntNegative(n, rest);
    } else {
      assert Decimal(n) == NatDecimal(n);
      ParseIntOfNatDecimal(n, rest);
    }
  }

  /** A number written after the `0d` prefix reads as that number, when the
      text after it starts with neither a digit nor an underscore. */
  lemma ParseIntOfPrefixed(m: nat, rest: string)
    requires rest == [] || (!IsDigit(rest[0]) && rest[0] != '_')
    ensures ParseInt("0d" + (NatDecimal(m) + rest)) == m
  {
    var d := NatDecimal(m);
    var t := "0d" + (d + rest);
    assert t[0] == '0' && t[1] == 'd' && t[2..] == d + rest;
    assert SkipSpace(t) == t;
    LeadingDigitsOfDigits(d, rest);
    DigitsValueOfNatDecimal(m);
  }

  /** The integer coercion of a rendered integer gives that integer back. */
  lemma ToIntegerOfDecimal(n: int)
    ensures ToInteger(Str(Decimal(n))) == Int(n)
  {
    ParseIntOfDecimal(n, "");
    assert Decimal(n) + "" == Decimal(n);
  }
}

=== FILE: wrappers.dfy ===
/** Failure-carrying datatypes shared by the other modules. */
module Wrappers {

  /** A value that may be absent, as Ruby's `nil`. */
  datatype Option<+T> = None | Some(value: T)

  /** The outcome of a computation that may raise instead of returning. */
  datatype Result<+R, +E> = Success(value: R) | Failure(error: E)
}
